=== FILE: README.md ===
# NTRIP server connection core, modelled in Dafny

This project models the decision logic of `libntrip::NtripServer`
(`src/ntrip_server.cc`). That class uploads GNSS correction data to an NTRIP
caster. It builds the NTRIP 2.0 `POST` upload request and sends it over a TCP
socket. It waits a bounded time for the caster's `ICY 200 OK` status line, and
it keeps a monitor thread watching the connection until the peer closes it or
a hard socket error occurs. `Stop` and the destructor tear the connection down.

The operating-system calls (`socket`, `connect`, `send`, `recv`, `close`,
`fcntl`, `setsockopt`) are not executed. What they return is an input (`Io`,
`Recv`). What the server asks of the system is an output: a sequence of
`Effect`s (`Connect`, `SetNonBlocking`, `Send`, `SetKeepalive`,
`SpawnMonitor`, `Close`). With this, "closes the descriptor once" and "leaves it
open" become statements about that sequence. Each thread's step is one atomic
transition over the record `State(socketFd, threadIsRunning,
serviceIsRunning, dataList)`.

Modules:

- `CString` (`cstring.dfy`): C string conventions. `%s` reads up to the first
  NUL, `snprintf` cuts text to its buffer's capacity less one, and `strncmp`
  stops at a NUL.
- `Decimal` (`decimal.dfy`): the `%d` conversion for the port, with a reader
  for its output.
- `Socket` (`socket.dfy`): `recv` results, `errno` values, keepalive settings
  and effects.
- `Request` (`request.dfy`): the credential text, the eight header lines, and
  the 48- and 1024-byte buffers. It also holds a CRLF line splitter used to
  state the request's layout.
- `Handshake` (`handshake.dfy`): the `while (timeout--)` acceptance loop, as
  written and corrected.
- `NtripServer` (`ntrip_server.dfy`): `Run` as a pipeline of steps, `Stop`,
  the destructor, and the monitor thread's step and teardown. It also chains
  all transitions into one event model, in which each `Run` call is either
  the source's `Run` or the corrected one.

Facts about the code that the model keeps:

- The credential buffer holds 47 characters plus a NUL.
- The request is eight CRLF-terminated header lines with no blank line after
  them. `Connection: close` and `Transfer-Encoding: chunked` are separate lines.
- The monitor loop only reads. It never drains the outgoing queue.
- During the handshake, a reply that is neither the acceptance line nor a
  zero read does not fail it: the loop sleeps and reads again, within its
  three-read budget.
- `Stop` closes the descriptor directly. It does not wait for the thread, and
  clearing the thread's flag is its only signal to it.

## Model

| member | source | states |
|---|---|---|
| CString.CStr | src/ntrip_server.cc:64-65 | what a `%s` conversion reads is the longest prefix without a NUL, ending at the first NUL or at the end |
| CString.StrNEqualLiteral | src/ntrip_server.cc:115 | `strncmp(buf, lit, n) == 0` for a NUL-free literal holds iff the buffer has at least `n` characters and starts with the literal's first `n` |
| Decimal.FormatRoundTrip | src/ntrip_server.cc:70-77 | the port text written by `%d` reads back as the port, for every integer including negatives |
| Request.Credentials | src/ntrip_server.cc:61-66 | the text given to the encoder is the prefix of `user:passwd` (each read up to its NUL) of length min(len, 47); it is the whole text when shorter than 48, and has no NUL |
| Request.Build | src/ntrip_server.cc:60-78 | the request is the formatted text cut to at most 1023 characters, whole when it fits, and NUL-free so `strlen` sends all of it |
| Request.SplitLinesRestores | src/ntrip_server.cc:68-76 | splitting text at CRLF loses nothing: the lines re-terminated plus the unterminated tail give back the text |
| Request.RequestLayout | src/ntrip_server.cc:68-78 | a request that fits and whose fields hold no CR is exactly eight CRLF-terminated lines, in order: POST, Host, Ntrip-Version, User-Agent, Authorization, Ntrip-STR, Connection, Transfer-Encoding. None is blank, so there is no header terminator and no body |
| Socket.Ret | src/ntrip_server.cc:114 | `recv` returns a positive count iff bytes arrived, 0 iff the peer closed, negative iff it failed, never more than the 1024-byte buffer |
| Handshake.BreakTestIsAcceptance | src/ntrip_server.cc:113-115 | the loop's break test (`ret > 0` and `strncmp` on the zeroed buffer) holds iff the reply's bytes begin with the 12 characters `ICY 200 OK\r\n` |
| Handshake.WaitLoopStopsAtFirstDecisive | src/ntrip_server.cc:111-124 | the loop stops at the first acceptance or zero read within its budget, leaving `timeout` at the budget minus the reads made. Otherwise it makes every read and leaves `timeout` at -1 |
| Handshake.HandshakeLoop | src/ntrip_server.cc:111-124 | the same, for the three-read budget, stated over the replies themselves |
| Handshake.AsWrittenAcceptsOnlyFirstTwoReads | src/ntrip_server.cc:111-128 | as written, the handshake succeeds iff an acceptance is the first answer within the first two reads. It closes the socket iff the first answer is a zero read. It makes at most three reads |
| Handshake.AsWrittenRejectsThirdReadAcceptance | src/ntrip_server.cc:111-128 | replies EAGAIN, EAGAIN, `ICY 200 OK\r\n`: as written, failure after three reads with the socket left open; corrected, success |
| Handshake.AsWrittenTimeoutLeavesSocketOpen | src/ntrip_server.cc:123-128 | when none of three reads is an acceptance or a zero read, the handshake fails after three reads without closing the socket |
| Handshake.HandshakeAcceptsWithinBudget | src/ntrip_server.cc:111-128 | corrected handshake: succeeds iff an acceptance is the first answer within three reads; closes the socket iff it fails; makes one to three reads |
| Handshake.PeerCloseEndsHandshake | src/ntrip_server.cc:118-122 | a zero read that is the first answer fails the handshake, closes the socket, and no read follows it, in both versions |
| Handshake.VersionsDifferOnlyAtThirdRead | src/ntrip_server.cc:111-128 | the as-written handshake accepts only what the corrected one accepts. They differ exactly when the first answer is an acceptance on the third read |
| NtripServer.Stop | src/ntrip_server.cc:148-158 | `Stop` lowers both flags, empties the queue, leaves the descriptor at -1, and closes the held descriptor iff it was not -1; it makes no other call |
| NtripServer.StopIsIdempotent | src/ntrip_server.cc:148-158 | a second `Stop` changes nothing and closes nothing |
| NtripServer.Destroy | src/ntrip_server.cc:52-56 | with the monitor flag up, the destructor acts as `Stop`: it closes the held descriptor if there is one, and makes no call other than `close`; it forgets the descriptor, lowers both flags and empties the queue. With the flag down it changes nothing and makes no call, so a held descriptor is kept, open or not. Consistency is preserved |
| NtripServer.DestroyAfterStopDoesNothing | src/ntrip_server.cc:52-56 | destroying a stopped server does nothing, so the descriptor is not closed twice |
| NtripServer.Classify | src/ntrip_server.cc:169-178 | one monitor read ends the loop iff the peer closed (zero return) or `recv` failed with `errno` other than EAGAIN, EWOULDBLOCK, EINTR |
| NtripServer.MonitorBegin | src/ntrip_server.cc:167 | the thread raises its own flag and changes nothing else |
| NtripServer.Teardown | src/ntrip_server.cc:181-184 | after its loop the thread closes whatever descriptor is held, sets it to -1, lowers both flags and keeps the queue |
| NtripServer.MonitorTick | src/ntrip_server.cc:168-184 | one pass of the monitor loop calls the system iff the flag is down or the read ends the loop. That call is a single `close` of the held descriptor, and it leaves the descriptor at -1 with both flags down and the queue kept. A live descriptor is closed only if one was held. A pass that continues changes nothing. Consistency is preserved |
| NtripServer.Monitor | src/ntrip_server.cc:164-185 | the thread exits iff some reply ends the loop. It stops at the first such reply, with all earlier ones transient or data, and leaves the torn-down state. Otherwise it reads every reply and is still running |
| NtripServer.MonitorAfterStopClosesNothingLive | src/ntrip_server.cc:168-182 | after `Stop`, the monitor's next pass ends the loop, and its teardown calls `close(-1)` only |
| NtripServer.StopAfterTeardownClosesNothing | src/ntrip_server.cc:151-154 | after the monitor's teardown, neither `Stop` nor the destructor closes anything |
| NtripServer.PipelineOrder | src/ntrip_server.cc:86-145 | the calls `Run`'s steps make, in this order, and no other call: none when `socket` fails; `connect` then `close` when `connect` fails; otherwise `connect`, the switch to non-blocking and the send, followed by a `close` when the send fails, by a `close` or nothing (as the handshake says) when the handshake fails, and by keepalive (1, 30, 5, 3) and the monitor thread on success |
| NtripServer.PipelineCloses | src/ntrip_server.cc:86-128 | `Run`'s steps close nothing when `socket` fails. They close the new descriptor exactly once when connect or send fails or the handshake closes it. They close nothing otherwise |
| NtripServer.PipelineOutcome | src/ntrip_server.cc:86-145 | for either handshake, `Run`'s steps succeed iff socket, connect and send succeed and the handshake accepts. On success they record the new descriptor and raise the service flag; they send the request, set keepalive (1, 30, 5, 3), start the monitor and close nothing; `PipelineOrder` gives the full call order. On failure the server is unchanged, and they set no keepalive and start no monitor. A failed connect sends nothing |
| NtripServer.RunAsWrittenSucceeds | src/ntrip_server.cc:86-145 | the source's `Run` succeeds iff socket, connect and send succeed and an acceptance is the first answer within two reads. On success it records the new descriptor and raises the service flag; it calls `connect`, switches to non-blocking, sends the request, sets keepalive (1, 30, 5, 3) and starts the monitor, in this order, and no other call. On failure it sets no keepalive and starts no monitor |
| NtripServer.RunSucceeds | src/ntrip_server.cc:86-145 | corrected `Run`: succeeds iff socket, connect and send succeed and an acceptance is the first answer within three reads. On success it records the new descriptor and raises the service flag; it calls `connect`, switches to non-blocking, sends the request, sets keepalive (1, 30, 5, 3) and starts the monitor, in this order, and no other call. On failure it sets no keepalive and starts no monitor |
| NtripServer.RunFailureClosesOnce | src/ntrip_server.cc:86-128 | corrected `Run`: a failing `Run` leaves the server unchanged. It closes nothing if the socket was never created, and otherwise closes the new descriptor exactly once |
| NtripServer.RunAsWrittenLeaksDescriptor | src/ntrip_server.cc:104-128 | as written, `Run` succeeds iff the first steps succeed and an acceptance comes within two reads. After a failing handshake the descriptor is closed iff the caster sent a zero read, and otherwise left open |
| NtripServer.RunAsWrittenRejectsThirdReadAcceptance | src/ntrip_server.cc:111-145 | on a caster that accepts on the third read, `Run` as written fails and leaves the descriptor open, while the corrected `Run` starts the server |
| NtripServer.RunWhileRunningDropsDescriptor | src/ntrip_server.cc:140 | a successful `Run` (the source's) on a server that already holds a descriptor overwrites it without closing it |
| NtripServer.DestroyBeforeMonitorStartsLeaks | src/ntrip_server.cc:52-56 | destroying a server whose `Run` (the source's) succeeded before its thread raised the flag closes nothing, and the descriptor stays recorded |
| NtripServer.TransitionPreservesConsistent | src/ntrip_server.cc:140-184 | every transition keeps "descriptor is -1 iff the service flag is down". This covers `Stop`, the destructor, the monitor's start and passes, and `Run`, both the source's and the corrected one |
| NtripServer.TransitionClosesSoundly | src/ntrip_server.cc:86-184 | every transition, with either `Run`, closes at most one live descriptor. It never leaves the server holding a descriptor it just closed, given that `socket` does not return a descriptor the server holds open |
| NtripServer.ReplayStaysConsistent | src/ntrip_server.cc:140-184 | every sequence of transitions from a consistent state stays consistent, with `Run` calls of either version |

## Left out

- The socket calls themselves are not modelled, and neither is `inet_addr` address parsing. Their results are inputs, and their requests are recorded as effects. The ignored results of `fcntl` and `setsockopt` are not modelled.
- Threads are not modelled: spawning and detaching `std::thread` is the `SpawnMonitor` effect. The unsynchronised sharing of `socket_fd_` and the flags is reduced to atomic transitions; interleavings inside a transition are not explored.
- `sleep(1)` and the 10 ms sleep only pace the loops, so they are left out.
- `Base64Encode` is not part of this model. It is the function parameter `encode`. The model does not check whether its output fits the 64-byte `userinfo` buffer. Encoding 47 bytes yields 64 characters, so a NUL terminator would overflow the buffer; the encoder's code is not shown.
- The value of `kServerAgent` is not part of this model. It is the `agent` field of `Params`.
- `printf` diagnostics are left out.
- The outgoing queue is only cleared by `Stop`. Adding to it, draining it onto the socket and chunk framing are not in the modelled code: the monitor loop never writes.
- The constructor's initial field values live in a header that is not part of this model. `Idle` assumes a descriptor of -1, both flags down and an empty queue.
- Handshake reads beyond the given replies count as `EAGAIN`: the socket is non-blocking and has nothing to deliver. When `recv` delivers more than 1024 bytes, the remainder is not carried over to the next read.
- The port is an unbounded integer. The 32-bit range of C `int` is not enforced; `%d` formats every value the same way.
- Request.RequestLayout: stated only for a request that fits its 1024-byte buffer and whose fields hold no carriage return. Otherwise the request is cut or gains extra lines, and the eight-line layout does not hold.
- NtripServer.Monitor: covers the replies given. When none of them ends the loop, it reports the thread as still running instead of reading forever.
- NtripServer.TransitionClosesSoundly: assumes `socket` never returns a descriptor the server holds open, as the operating system guarantees; when the server holds none, every `socket` result, failure included, is covered.

## Findings

| source | as written | input that shows it | evidently intended | confidence | as-written member | corrected member |
|---|---|---|---|---|---|---|
| src/ntrip_server.cc:111-128 | `while (timeout--)` leaves `timeout` at 0 when the third read breaks out, and `if (timeout <= 0) return false;` then rejects it | replies EAGAIN, EAGAIN, `ICY 200 OK\r\n` | an acceptance on any of the three reads lets `Run` proceed | high, not executed | Handshake.AsWrittenRejectsThirdReadAcceptance | Handshake.HandshakeAcceptsWithinBudget |
| src/ntrip_server.cc:126-128 | the failure after the loop returns without `close(socket_fd)`, and the descriptor is never stored in `socket_fd_` | three EAGAIN replies | every failing path after the socket is created closes it once | medium, not executed | NtripServer.RunAsWrittenLeaksDescriptor | NtripServer.RunFailureClosesOnce |

=== FILE: cstring.dfy ===
/**
  C string conventions the server relies on: a character buffer holds text up
  to its first NUL, `snprintf` truncates to the buffer's capacity less one, and
  `strncmp` compares at most `n` characters and stops after a NUL.
  A Dafny `char` stands for one C `char` (one byte).
 */
module CString {

  const NUL: char := '\0'

  /** The text a `%s` conversion (or `strlen`) reads out of `s`: everything before the first NUL. */
  function CStr(s: string): (r: string)
    ensures |r| <= |s| && r == s[..|r|]
    ensures NUL !in r
    ensures |r| < |s| ==> s[|r|] == NUL
  {
    if |s| == 0 || s[0] == NUL then [] else [s[0]] + CStr(s[1..])
  }

  /** What `snprintf(buf, capacity, ...)` leaves in `buf` when the conversion produces `text`. */
  function Snprintf(text: string, capacity: nat): (r: string)
    requires capacity > 0
    ensures |r| < capacity && |r| <= |text|
    ensures r == text[..|r|]
    ensures |text| < capacity ==> r == text
    ensures |text| >= capacity ==> |r| == capacity - 1
  {
    if |text| < capacity then text else text[..capacity - 1]
  }

  /** The character at position `i` of a zero-initialised buffer whose first characters are `s`. */
  function At(s: string, i: nat): char {
    if i < |s| then s[i] else NUL
  }

  /** The buffer seen one position further on. */
  function Rest(s: string): string {
    if |s| == 0 then [] else s[1..]
  }

  /**
    `strncmp(a, b, n) == 0` for two zero-padded buffers holding `a` and `b`:
    the first `n` characters agree, where the comparison ends early after a
    NUL common to both.
   */
  predicate StrNEqual(a: string, b: string, n: nat)
    decreases n
  {
    n == 0 || (At(a, 0) == At(b, 0) && (At(a, 0) == NUL || StrNEqual(Rest(a), Rest(b), n - 1)))
  }

  /**
    Comparing a buffer with a literal that has no NUL among its first `n`
    characters succeeds exactly when the buffer starts with those `n` characters.
   */
  lemma {:induction false} StrNEqualLiteral(a: string, lit: string, n: nat)
    requires n <= |lit|
    requires NUL !in lit[..n]
    ensures StrNEqual(a, lit, n) <==> |a| >= n && a[..n] == lit[..n]
    decreases n
  {
    if n > 0 {
      assert lit[0] == lit[..n][0];
      assert At(lit, 0) == lit[0] != NUL;
      var a', lit' := Rest(a), Rest(lit);
      assert lit' == lit[1..];
      assert lit'[..n - 1] == lit[..n][1..];
      StrNEqualLiteral(a', lit', n - 1);
      if |a| >= n && a[..n] == lit[..n] {
        assert a[0] == a[..n][0];
        assert a'[..n - 1] == a[..n][1..];
      }
      if StrNEqual(a, lit, n) {
        assert At(a, 0) == lit[0];
        assert |a| > 0;
        assert a' == a[1..];
        assert a[..n] == [a[0]] + a'[..n - 1];
        assert lit[..n] == [lit[0]] + lit'[..n - 1];
      }
    }
  }
}

=== FILE: decimal.dfy ===
/**
  The `%d` conversion used for the caster port in the `Host:` header, and a
  reader for its output so that the formatting can be checked by a round trip.
 */
module Decimal {

  predicate IsDigit(c: char) {
    '0' <= c <= '9'
  }

  function DigitChar(d: nat): (c: char)
    requires d < 10
    ensures IsDigit(c) && c as int - '0' as int == d
  {
    ('0' as int + d) as char
  }

  /** Decimal digits of a natural number, most significant first, with no leading zero. */
  function Digits(n: nat): (s: string)
    ensures |s| >= 1
    ensures forall i :: 0 <= i < |s| ==> IsDigit(s[i])
    ensures s[0] == '0' ==> n == 0
  {
    if n < 10 then [DigitChar(n)] else Digits(n / 10) + [DigitChar(n % 10)]
  }

  /** Text written by `printf("%d", n)`. */
  function Format(n: int): (s: string)
    ensures |s| >= 1
    ensures forall i :: 0 <= i < |s| ==> IsDigit(s[i]) || (i == 0 && s[i] == '-')
  {
    if n < 0 then "-" + Digits(-n) else Digits(n)
  }

  /** The number a string of digits denotes. */
  function Value(s: string): nat
    requires forall i :: 0 <= i < |s| ==> IsDigit(s[i])
  {
    if |s| == 0 then 0
    else
      assert IsDigit(s[|s| - 1]);
      Value(s[..|s| - 1]) * 10 + (s[|s| - 1] as int - '0' as int)
  }

  /** Reads an optionally signed decimal numeral. */
  function Parse(s: string): int
    requires forall i :: 0 <= i < |s| ==> IsDigit(s[i]) || (i == 0 && s[i] == '-')
  {
    if |s| > 0 && s[0] == '-' then -(Value(s[1..]) as int) else Value(s)
  }

  lemma {:induction false} DigitsRoundTrip(n: nat)
    ensures Value(Digits(n)) == n
    decreases n
  {
    if n >= 10 {
      DigitsRoundTrip(n / 10);
      var s := Digits(n);
      assert s[..|s| - 1] == Digits(n / 10);
    }
  }

  /** Reading back the formatted port yields the port. */
  lemma FormatRoundTrip(n: int)
    ensures Parse(Format(n)) == n
  {
    if n < 0 {
      DigitsRoundTrip(-n);
      assert Format(n)[1..] == Digits(-n);
    } else {
      DigitsRoundTrip(n);
    }
  }
}

=== FILE: handshake.dfy ===
/**
  The wait for the caster's acceptance line after the upload request is sent
  (`NtripServer::Run`, the `while (timeout--)` loop and the `timeout <= 0`
  test after it). A socket read is an abstract `Recv`; the loop's one-second
  sleeps have no logical effect and are left out.
 */
module Handshake {
  import opened CString
  import opened Socket

  /** The status line a caster sends when it accepts the upload. */
  const AcceptLine := "ICY 200 OK\r\n"
  /** How many characters of the buffer are compared with it. */
  const AcceptLength: nat := 12
  /** The initial value of the loop counter `timeout`. */
  const Attempts: nat := 3

  /**
    The `i`-th read of the handshake. The given replies are what the caster
    delivers; once they are used up, the non-blocking socket has nothing to
    give and `recv` fails with EAGAIN.
   */
  function ReadAt(replies: seq<Recv>, i: nat): Recv {
    if i < |replies| then replies[i] else Error(EAGAIN)
  }

  /**
    The loop's break test as the source writes it: `ret > 0` and `strncmp`
    of the zeroed buffer with the literal returns 0.
   */
  predicate BreakTest(r: Recv) {
    Ret(r) > 0 && StrNEqual(Received(r), AcceptLine, AcceptLength)
  }

  /** The caster's bytes begin with `ICY 200 OK\r\n`. */
  predicate IsAcceptance(r: Recv) {
    r.Data? && |r.bytes| >= AcceptLength && r.bytes[..AcceptLength] == AcceptLine
  }

  /**
    The break test holds exactly when the reply starts with the status line,
    so the rest of the model classifies replies by `IsAcceptance`.
   */
  lemma BreakTestIsAcceptance(r: Recv)
    ensures BreakTest(r) <==> IsAcceptance(r)
  {
    assert AcceptLine[..AcceptLength] == AcceptLine;
    assert NUL !in AcceptLine;
    StrNEqualLiteral(Received(r), AcceptLine, AcceptLength);
    if r.Data? && |r.bytes| >= AcceptLength {
      assert Received(r)[..AcceptLength] == r.bytes[..AcceptLength];
    }
  }

  /** How the loop's body treats one read. */
  datatype Kind =
    | Accept    // the status line arrived: `break`
    | Zero      // `recv` returned 0, the caster closed: close and `return false`
    | Pending   // anything else: sleep and try again

  /** The body's branches in source order; `IsAcceptance` stands for the break test (`BreakTestIsAcceptance`). */
  function KindOf(r: Recv): Kind {
    if IsAcceptance(r) then Accept else if Ret(r) == 0 then Zero else Pending
  }

  /** The kinds of the three reads the loop can make. */
  function Kinds(replies: seq<Recv>): (ks: seq<Kind>)
    ensures |ks| == Attempts
  {
    seq(Attempts, i requires 0 <= i < Attempts => KindOf(ReadAt(replies, i)))
  }

  function KindAt(ks: seq<Kind>, i: nat): Kind {
    if i < |ks| then ks[i] else Pending
  }

  /** How the loop was left: `break` on acceptance, `return` on a zero read, or the counter ran out. */
  datatype Exit = Matched | PeerClosed | Exhausted

  /** The loop's exit, the value of `timeout` afterwards, and how many reads it made. */
  datatype Wait = Wait(exit: Exit, timeout: int, used: nat)

  /**
    `while (timeout--) { ... }` entered with `timeout` and next read `i`: the
    test reads the counter and then decrements it, so leaving through the test
    leaves it at -1, and leaving through `break` leaves the decremented value.
   */
  function WaitLoop(ks: seq<Kind>, timeout: nat, i: nat): Wait
    decreases timeout
  {
    if timeout == 0 then Wait(Exhausted, -1, i)
    else
      match KindAt(ks, i)
      case Accept => Wait(Matched, timeout - 1, i + 1)
      case Zero => Wait(PeerClosed, timeout - 1, i + 1)
      case Pending => WaitLoop(ks, timeout - 1, i + 1)
  }

  /** Read `k` is the first one among the `t` reads from `i` on that ends the loop. */
  ghost predicate FirstDecisive(ks: seq<Kind>, k: nat, i: nat, t: nat) {
    && i <= k < i + t
    && KindAt(ks, k) != Pending
    && forall j :: i <= j < k ==> KindAt(ks, j) == Pending
  }

  /**
    What the loop does, stated without the loop: it stops at the first
    decisive read within its budget (with `timeout` left at the budget minus
    the reads made), and otherwise makes every read and leaves `timeout` at -1.
   */
  lemma {:induction false} WaitLoopStopsAtFirstDecisive(ks: seq<Kind>, t: nat, i: nat)
    ensures var w := WaitLoop(ks, t, i);
      && (w.exit == Exhausted <==> forall j :: i <= j < i + t ==> KindAt(ks, j) == Pending)
      && (w.exit == Exhausted ==> w.used == i + t && w.timeout == -1)
      && (w.exit != Exhausted ==>
            && w.used >= 1
            && FirstDecisive(ks, w.used - 1, i, t)
            && w.timeout == t - (w.used - i)
            && (w.exit == Matched <==> KindAt(ks, w.used - 1) == Accept))
    decreases t
  {
    if t > 0 && KindAt(ks, i) == Pending {
      WaitLoopStopsAtFirstDecisive(ks, t - 1, i + 1);
      var w := WaitLoop(ks, t, i);
      if w.exit == Exhausted {
        forall j | i <= j < i + t
          ensures KindAt(ks, j) == Pending
        {
          if j > i {
            assert i + 1 <= j < i + 1 + (t - 1);
          }
        }
      } else {
        assert FirstDecisive(ks, w.used - 1, i + 1, t - 1);
      }
    }
  }

  lemma FirstDecisiveUnique(ks: seq<Kind>, k: nat, k': nat, i: nat, t: nat)
    requires FirstDecisive(ks, k, i, t) && FirstDecisive(ks, k', i, t)
    ensures k == k'
  {
  }

  /** What the handshake tells `Run`: whether to go on, whether it closed the socket, how many reads it made. */
  datatype Outcome = Outcome(accepted: bool, closesSocket: bool, readCount: nat)

  /**
    The handshake as the source writes it: a zero read closes the socket and
    fails; otherwise `if (timeout <= 0) return false;` decides, without
    closing the socket.
   */
  function HandshakeAsWritten(replies: seq<Recv>): Outcome {
    var w := WaitLoop(Kinds(replies), Attempts, 0);
    if w.exit == PeerClosed then Outcome(false, true, w.used)
    else if w.timeout <= 0 then Outcome(false, false, w.used)
    else Outcome(true, false, w.used)
  }

  /**
    The handshake as intended: it succeeds on an acceptance within the three
    reads, and every failing path closes the socket.
   */
  function Handshake(replies: seq<Recv>): Outcome {
    var w := WaitLoop(Kinds(replies), Attempts, 0);
    if w.exit == Matched then Outcome(true, false, w.used) else Outcome(false, true, w.used)
  }

  /** Read `k` is the first of the three that is an acceptance or a zero read. */
  ghost predicate FirstAnswer(replies: seq<Recv>, k: nat) {
    && k < Attempts
    && (IsAcceptance(ReadAt(replies, k)) || Ret(ReadAt(replies, k)) == 0)
    && forall j :: 0 <= j < k ==> !IsAcceptance(ReadAt(replies, j)) && Ret(ReadAt(replies, j)) != 0
  }

  lemma FirstAnswerIsFirstDecisive(replies: seq<Recv>, k: nat)
    ensures FirstAnswer(replies, k) <==> FirstDecisive(Kinds(replies), k, 0, Attempts)
  {
    var ks := Kinds(replies);
    assert forall j :: 0 <= j < Attempts ==> KindAt(ks, j) == KindOf(ReadAt(replies, j));
  }

  /** The first answer among the first `n` reads is an acceptance. */
  ghost predicate AcceptedWithin(replies: seq<Recv>, n: nat) {
    exists k :: 0 <= k < n && FirstAnswer(replies, k) && IsAcceptance(ReadAt(replies, k))
  }

  /** None of the three reads is an acceptance or a zero read. */
  ghost predicate Silent(replies: seq<Recv>) {
    forall j :: 0 <= j < Attempts ==> !IsAcceptance(ReadAt(replies, j)) && Ret(ReadAt(replies, j)) != 0
  }

  /** The loop's exit for `replies`, in terms of the replies themselves. */
  lemma HandshakeLoop(replies: seq<Recv>)
    ensures var w := WaitLoop(Kinds(replies), Attempts, 0);
      && (w.exit == Exhausted <==> Silent(replies))
      && (w.exit == Exhausted ==> w.used == Attempts && w.timeout == -1)
      && (w.exit != Exhausted ==>
            && w.used >= 1
            && FirstAnswer(replies, w.used - 1)
            && w.timeout == Attempts - w.used
            && (w.exit == Matched <==> IsAcceptance(ReadAt(replies, w.used - 1)))
            && (w.exit == PeerClosed <==> Ret(ReadAt(replies, w.used - 1)) == 0))
  {
    var ks := Kinds(replies);
    WaitLoopStopsAtFirstDecisive(ks, Attempts, 0);
    assert forall j :: 0 <= j < Attempts ==> KindAt(ks, j) == KindOf(ReadAt(replies, j));
    var w := WaitLoop(ks, Attempts, 0);
    if w.exit != Exhausted {
      FirstAnswerIsFirstDecisive(replies, w.used - 1);
    }
  }

  lemma FirstAnswerUnique(replies: seq<Recv>, k: nat, k': nat)
    requires FirstAnswer(replies, k) && FirstAnswer(replies, k')
    ensures k == k'
  {
    FirstAnswerIsFirstDecisive(replies, k);
    FirstAnswerIsFirstDecisive(replies, k');
    FirstDecisiveUnique(Kinds(replies), k, k', 0, Attempts);
  }

  /**
    As written, an acceptance counts only on the first or second read: one on
    the third leaves `timeout` at 0 and is reported as a failure. Only a zero
    read closes the socket, and at most three reads are made.
   */
  lemma AsWrittenAcceptsOnlyFirstTwoReads(replies: seq<Recv>)
    ensures HandshakeAsWritten(replies).accepted <==> AcceptedWithin(replies, Attempts - 1)
    ensures HandshakeAsWritten(replies).closesSocket <==>
      exists k :: FirstAnswer(replies, k) && Ret(ReadAt(replies, k)) == 0
    ensures HandshakeAsWritten(replies).readCount <= Attempts
  {
    HandshakeLoop(replies);
    var w := WaitLoop(Kinds(replies), Attempts, 0);
    if AcceptedWithin(replies, Attempts - 1) {
      var k :| 0 <= k < Attempts - 1 && FirstAnswer(replies, k) && IsAcceptance(ReadAt(replies, k));
      assert !Silent(replies);
      FirstAnswerUnique(replies, k, w.used - 1);
    }
    if exists k :: FirstAnswer(replies, k) && Ret(ReadAt(replies, k)) == 0 {
      var k :| FirstAnswer(replies, k) && Ret(ReadAt(replies, k)) == 0;
      assert !Silent(replies);
      FirstAnswerUnique(replies, k, w.used - 1);
    }
    if w.exit == Matched && w.timeout > 0 {
      assert AcceptedWithin(replies, Attempts - 1) by {
        var k := w.used - 1;
        assert 0 <= k < Attempts - 1 && FirstAnswer(replies, k) && IsAcceptance(ReadAt(replies, k));
      }
    }
    if w.exit == PeerClosed {
      var k := w.used - 1;
      assert FirstAnswer(replies, k) && Ret(ReadAt(replies, k)) == 0;
    }
  }

  /** A caster that accepts on the third read is turned away, and the socket is left open. */
  lemma AsWrittenRejectsThirdReadAcceptance()
    ensures HandshakeAsWritten([Error(EAGAIN), Error(EAGAIN), Data(AcceptLine)]) == Outcome(false, false, 3)
    ensures Handshake([Error(EAGAIN), Error(EAGAIN), Data(AcceptLine)]) == Outcome(true, false, 3)
  {
    var replies := [Error(EAGAIN), Error(EAGAIN), Data(AcceptLine)];
    assert AcceptLine[..AcceptLength] == AcceptLine;
    assert ReadAt(replies, 0) == Error(EAGAIN) && ReadAt(replies, 1) == Error(EAGAIN);
    assert ReadAt(replies, 2) == Data(AcceptLine);
    assert Kinds(replies) == [Pending, Pending, Accept];
  }

  /** A caster that never answers makes the handshake fail after three reads without closing the socket. */
  lemma AsWrittenTimeoutLeavesSocketOpen(replies: seq<Recv>)
    requires Silent(replies)
    ensures HandshakeAsWritten(replies) == Outcome(false, false, Attempts)
  {
    HandshakeLoop(replies);
  }

  /**
    The intended handshake accepts exactly when an acceptance is the first
    answer among the three reads; when it fails it closes the socket, and it
    makes between one and three reads.
   */
  lemma HandshakeAcceptsWithinBudget(replies: seq<Recv>)
    ensures Handshake(replies).accepted <==> AcceptedWithin(replies, Attempts)
    ensures Handshake(replies).closesSocket <==> !Handshake(replies).accepted
    ensures 1 <= Handshake(replies).readCount <= Attempts
  {
    HandshakeLoop(replies);
    var w := WaitLoop(Kinds(replies), Attempts, 0);
    if AcceptedWithin(replies, Attempts) {
      var k :| 0 <= k < Attempts && FirstAnswer(replies, k) && IsAcceptance(ReadAt(replies, k));
      assert !Silent(replies);
      FirstAnswerUnique(replies, k, w.used - 1);
    }
    if w.exit == Matched {
      assert FirstAnswer(replies, w.used - 1);
    }
  }

  /**
    A zero read ends the handshake at once, under either version: the socket
    is closed, the handshake fails, and no read follows it.
   */
  lemma PeerCloseEndsHandshake(replies: seq<Recv>, k: nat)
    requires FirstAnswer(replies, k) && Ret(ReadAt(replies, k)) == 0
    ensures HandshakeAsWritten(replies) == Outcome(false, true, k + 1)
    ensures Handshake(replies) == Outcome(false, true, k + 1)
  {
    HandshakeLoop(replies);
    var w := WaitLoop(Kinds(replies), Attempts, 0);
    assert !Silent(replies);
    FirstAnswerUnique(replies, k, w.used - 1);
  }

  /** The two versions differ exactly on an acceptance that first arrives on the third read. */
  lemma VersionsDifferOnlyAtThirdRead(replies: seq<Recv>)
    ensures HandshakeAsWritten(replies).accepted ==> Handshake(replies).accepted
    ensures Handshake(replies).accepted && !HandshakeAsWritten(replies).accepted
        <==> FirstAnswer(replies, Attempts - 1) && IsAcceptance(ReadAt(replies, Attempts - 1))
  {
    HandshakeLoop(replies);
    var w := WaitLoop(Kinds(replies), Attempts, 0);
    if FirstAnswer(replies, Attempts - 1) {
      assert !Silent(replies);
      FirstAnswerUnique(replies, Attempts - 1, w.used - 1);
    }
  }
}

=== FILE: ntrip_server.dfy ===
/**
  The `NtripServer` controller: `Run` (socket, connect, send, handshake,
  commit), `Stop`, the destructor's guard, and the monitor thread
  (`TheradHandler`) as one-step transitions over the server's fields. Each
  thread's step is atomic here; interleavings are not modelled.
 */
module NtripServer {
  import opened Socket
  import Request
  import Handshake

  /** The fields of `NtripServer` the core reads and writes. */
  datatype State = State(
    socketFd: int,
    threadIsRunning: bool,
    serviceIsRunning: bool,
    dataList: seq<string>)

  /**
    A server that holds no connection: no descriptor, both flags down, an
    empty queue. (The constructor is in a header that is not part of this
    model; these are the values `Stop` leaves.)
   */
  const Idle := State(-1, false, false, [])

  /** The state after a transition, and the system calls the transition makes. */
  datatype Step = Step(server: State, effects: seq<Effect>)

  /** The service flag is up exactly when a descriptor is held. */
  predicate Consistent(s: State) {
    s.socketFd == -1 <==> !s.serviceIsRunning
  }

  // ---------------------------------------------------------------------
  // Stop and the destructor.
  // ---------------------------------------------------------------------

  /**
    `Stop`: lowers both flags, closes the descriptor if one is held and
    forgets it, and empties the outgoing queue.
   */
  function Stop(s: State): (r: Step)
    ensures !r.server.threadIsRunning && !r.server.serviceIsRunning
    ensures r.server.socketFd == -1 && r.server.dataList == []
    ensures Closes(r.effects) == if s.socketFd != -1 then [s.socketFd] else []
    ensures forall i :: 0 <= i < |r.effects| ==> r.effects[i].Close?
  {
    Step(Idle, if s.socketFd != -1 then [Close(s.socketFd)] else [])
  }

  /** A second `Stop` changes nothing and closes nothing. */
  lemma StopIsIdempotent(s: State)
    ensures Stop(Stop(s).server) == Step(Stop(s).server, [])
  {
  }

  /**
    `~NtripServer`: calls `Stop` only while the monitor thread's flag is up.
    So it closes the held descriptor exactly when that flag is up and a
    descriptor is held; with the flag down it keeps the descriptor, open or not.
   */
  function Destroy(s: State): (r: Step)
    ensures forall e :: e in r.effects ==> e.Close?
    ensures Closes(r.effects) == LiveCloses(r.effects)
    ensures LiveCloses(r.effects) == if s.threadIsRunning && s.socketFd != -1 then [s.socketFd] else []
    ensures !r.server.threadIsRunning
    ensures r.server.socketFd == if s.threadIsRunning then -1 else s.socketFd
    ensures s.threadIsRunning ==> !r.server.serviceIsRunning && r.server.dataList == []
    ensures !s.threadIsRunning ==> r.server == s && r.effects == []
    ensures Consistent(s) ==> Consistent(r.server)
  {
    if s.threadIsRunning then Stop(s) else Step(s, [])
  }

  /** Destroying a stopped server does nothing, so the descriptor is never closed twice. */
  lemma DestroyAfterStopDoesNothing(s: State)
    ensures Destroy(Stop(s).server) == Step(Stop(s).server, [])
  {
  }

  // ---------------------------------------------------------------------
  // The monitor thread.
  // ---------------------------------------------------------------------

  /** What the monitor loop does with one `recv` result. */
  datatype Verdict = Continue | Exit

  /**
    A zero read (the caster closed) or a failure other than EAGAIN,
    EWOULDBLOCK or EINTR ends the loop; data and those transient failures
    keep it going.
   */
  function Classify(r: Recv): (v: Verdict)
    ensures v == Exit <==> r.Closed? || r == Data([]) || (r.Error? && r.errno != EAGAIN && r.errno != EWOULDBLOCK && r.errno != EINTR)
  {
    if Ret(r) == 0 then Exit
    else if Ret(r) < 0 && !Transient(r.errno) then Exit
    else Continue
  }

  /** The thread's first statement raises its flag. */
  function MonitorBegin(s: State): (t: State)
    ensures t.threadIsRunning
    ensures t.socketFd == s.socketFd && t.serviceIsRunning == s.serviceIsRunning && t.dataList == s.dataList
  {
    s.(threadIsRunning := true)
  }

  /**
    What the thread does after its loop: closes the descriptor it holds
    (whatever its value), forgets it and lowers both flags. The queue is left
    as it is.
   */
  function Teardown(s: State): (r: Step)
    ensures r.effects == [Close(s.socketFd)]
    ensures r.server.socketFd == -1 && !r.server.threadIsRunning && !r.server.serviceIsRunning
    ensures r.server.dataList == s.dataList
  {
    Step(State(-1, false, false, s.dataList), [Close(s.socketFd)])
  }

  /**
    One pass of the monitor loop: if the flag is down the loop ends and the
    thread tears down; otherwise one `recv` result is classified and an
    `Exit` tears down, a `Continue` changes nothing.
   */
  function MonitorTick(s: State, reply: Recv): (r: Step)
    ensures r.effects != [] <==> !s.threadIsRunning || Classify(reply) == Exit
    ensures forall e :: e in r.effects ==> e.Close?
    ensures r.effects == [] ==> r.server == s
    ensures r.effects != [] ==>
      && Closes(r.effects) == [s.socketFd]
      && r.server.socketFd == -1 && !r.server.threadIsRunning && !r.server.serviceIsRunning
      && r.server.dataList == s.dataList
    ensures LiveCloses(r.effects) == if r.effects != [] && s.socketFd != -1 then [s.socketFd] else []
    ensures Consistent(s) ==> Consistent(r.server)
  {
    if !s.threadIsRunning || Classify(reply) == Exit then Teardown(s) else Step(s, [])
  }

  /**
    The monitor thread run over the replies its socket delivers: it raises
    its flag, reads until a reply ends the loop and then tears down; if no
    reply among those given ends it, the thread is still running when they
    run out.
   */
  method Monitor(s: State, replies: seq<Recv>) returns (r: Step, used: nat, exited: bool)
    ensures exited <==> exists k :: 0 <= k < |replies| && Classify(replies[k]) == Exit
    ensures used <= |replies|
    ensures exited ==> 1 <= used && Classify(replies[used - 1]) == Exit
    ensures forall j :: 0 <= j < used - 1 ==> Classify(replies[j]) == Continue
    ensures exited ==> r == Teardown(MonitorBegin(s))
    ensures !exited ==> used == |replies| && r == Step(MonitorBegin(s), [])
  {
    var t := MonitorBegin(s);
    used := 0;
    while used < |replies|
      invariant used <= |replies|
      invariant forall j :: 0 <= j < used ==> Classify(replies[j]) == Continue
    {
      var tick := MonitorTick(t, replies[used]);
      used := used + 1;
      if tick.effects != [] {
        return tick, used, true;
      }
    }
    return Step(t, []), used, false;
  }

  /** After `Stop`, the monitor's next pass ends the loop and its teardown closes no live descriptor. */
  lemma MonitorAfterStopClosesNothingLive(s: State, reply: Recv)
    ensures MonitorTick(Stop(s).server, reply).effects == [Close(-1)]
    ensures LiveCloses(MonitorTick(Stop(s).server, reply).effects) == []
  {
  }

  /** After the monitor has torn down, neither `Stop` nor the destructor closes anything. */
  lemma StopAfterTeardownClosesNothing(s: State)
    ensures Stop(Teardown(s).server).effects == []
    ensures Destroy(Teardown(s).server).effects == []
  {
  }

  // ---------------------------------------------------------------------
  // Run.
  // ---------------------------------------------------------------------

  /**
    What the system calls `Run` makes return: `socket` (-1 on failure),
    `connect` and `send` (negative on failure), and the replies the handshake
    reads.
   */
  datatype Io = Io(socketRet: int, connectRet: int, sendRet: int, replies: seq<Recv>)

  /** `Run`'s verdict, the state it leaves, and the system calls it makes. */
  datatype Launch = Launch(ok: bool, server: State, effects: seq<Effect>)

  /** Whether the steps before the handshake all succeed. */
  predicate Reached(io: Io) {
    io.socketRet != -1 && io.connectRet >= 0 && io.sendRet >= 0
  }

  /**
    The steps of `Run` in order, given the request text and the handshake's
    outcome: create the socket, connect, make it non-blocking and send the
    request, wait for the caster, then set keepalive, start the monitor and
    record the descriptor.
   */
  function Pipeline(s: State, request: string, io: Io, hs: Handshake.Outcome): Launch {
    var fd := io.socketRet;
    if fd == -1 then Launch(false, s, [])
    else if io.connectRet < 0 then Launch(false, s, [Connect(fd), Close(fd)])
    else
      var sent := [Connect(fd), SetNonBlocking(fd), Send(fd, request)];
      if io.sendRet < 0 then Launch(false, s, sent + [Close(fd)])
      else if !hs.accepted then Launch(false, s, sent + if hs.closesSocket then [Close(fd)] else [])
      else Launch(true, s.(socketFd := fd, serviceIsRunning := true), sent + [SetKeepalive(fd, CasterKeepalive), SpawnMonitor])
  }

  /**
    Whatever the handshake, `Run`'s steps succeed exactly when socket,
    connect and send succeed and the handshake accepts. Success records the
    new descriptor, raises the service flag, sends the request, sets
    keepalive to (1, 30, 5, 3), starts the monitor and closes nothing; failure
    leaves the server as it was, sets no keepalive and starts no monitor, and
    a failed connect sends nothing.
   */
  lemma PipelineOutcome(s: State, request: string, io: Io, hs: Handshake.Outcome)
    ensures Pipeline(s, request, io, hs).ok <==> Reached(io) && hs.accepted
    ensures !Pipeline(s, request, io, hs).ok ==> Pipeline(s, request, io, hs).server == s
    ensures Pipeline(s, request, io, hs).ok ==>
      && Pipeline(s, request, io, hs).server == s.(socketFd := io.socketRet, serviceIsRunning := true)
      && Send(io.socketRet, request) in Pipeline(s, request, io, hs).effects
      && SetKeepalive(io.socketRet, Keepalive(1, 30, 5, 3)) in Pipeline(s, request, io, hs).effects
      && SpawnMonitor in Pipeline(s, request, io, hs).effects
      && Closes(Pipeline(s, request, io, hs).effects) == []
    ensures SpawnMonitor in Pipeline(s, request, io, hs).effects <==> Pipeline(s, request, io, hs).ok
    ensures forall e :: e in Pipeline(s, request, io, hs).effects && e.SetKeepalive? ==> Pipeline(s, request, io, hs).ok
    ensures io.connectRet < 0 ==> forall e :: e in Pipeline(s, request, io, hs).effects ==> !e.Send?
  {
    PipelineCloses(s, request, io, hs);
    if Pipeline(s, request, io, hs).ok {
      var fd := io.socketRet;
      var l := Pipeline(s, request, io, hs);
      assert l.effects == [Connect(fd), SetNonBlocking(fd), Send(fd, request), SetKeepalive(fd, CasterKeepalive), SpawnMonitor];
      assert l.effects[2] == Send(fd, request) && l.effects[3] == SetKeepalive(fd, CasterKeepalive) && l.effects[4] == SpawnMonitor;
    }
  }

  /**
    The calls `Run`'s steps make, in order and with no other: nothing when
    `socket` fails; connect then close when `connect` fails; otherwise
    connect, switch to non-blocking and send, followed by a close when the
    send fails, by a close or nothing when the handshake fails, and by the
    keepalive settings and the monitor thread on success.
   */
  lemma PipelineOrder(s: State, request: string, io: Io, hs: Handshake.Outcome)
    ensures io.socketRet == -1 ==> Pipeline(s, request, io, hs).effects == []
    ensures io.socketRet != -1 && io.connectRet < 0 ==>
      Pipeline(s, request, io, hs).effects == [Connect(io.socketRet), Close(io.socketRet)]
    ensures io.socketRet != -1 && io.connectRet >= 0 ==>
      && |Pipeline(s, request, io, hs).effects| >= 3
      && Pipeline(s, request, io, hs).effects[..3] == [Connect(io.socketRet), SetNonBlocking(io.socketRet), Send(io.socketRet, request)]
    ensures io.socketRet != -1 && io.connectRet >= 0 && io.sendRet < 0 ==>
      Pipeline(s, request, io, hs).effects[3..] == [Close(io.socketRet)]
    ensures Reached(io) && !hs.accepted ==>
      Pipeline(s, request, io, hs).effects[3..] == if hs.closesSocket then [Close(io.socketRet)] else []
    ensures Pipeline(s, request, io, hs).ok ==>
      Pipeline(s, request, io, hs).effects[3..] == [SetKeepalive(io.socketRet, CasterKeepalive), SpawnMonitor]
  {
    var fd := io.socketRet;
    var l := Pipeline(s, request, io, hs);
    if fd != -1 && io.connectRet >= 0 {
      var sent := [Connect(fd), SetNonBlocking(fd), Send(fd, request)];
      var tail := if io.sendRet < 0 then [Close(fd)]
        else if !hs.accepted then (if hs.closesSocket then [Close(fd)] else [])
        else [SetKeepalive(fd, CasterKeepalive), SpawnMonitor];
      assert l.effects == sent + tail;
      assert l.effects[..3] == sent && l.effects[3..] == tail;
    }
  }

  /** The descriptors `Run`'s steps close: the new one, once, on each failure that closes it. */
  lemma PipelineCloses(s: State, request: string, io: Io, hs: Handshake.Outcome)
    ensures var l := Pipeline(s, request, io, hs);
      && Closes(l.effects) == LiveCloses(l.effects)
      && Closes(l.effects) ==
        if io.socketRet == -1 then []
        else if io.connectRet < 0 || io.sendRet < 0 || (!hs.accepted && hs.closesSocket) then [io.socketRet]
        else []
  {
    var fd := io.socketRet;
    if fd != -1 {
      assert Closes([Close(fd)]) == [fd] && LiveCloses([Close(fd)]) == [fd];
      if io.connectRet < 0 {
        ClosesNone([Connect(fd)]);
        ClosesConcat([Connect(fd)], [Close(fd)]);
      } else {
        var sent := [Connect(fd), SetNonBlocking(fd), Send(fd, request)];
        ClosesNone(sent);
        if io.sendRet < 0 || (!hs.accepted && hs.closesSocket) {
          ClosesConcat(sent, [Close(fd)]);
        } else if !hs.accepted {
          assert sent + [] == sent;
        } else {
          var started := [SetKeepalive(fd, CasterKeepalive), SpawnMonitor];
          ClosesNone(started);
          ClosesConcat(sent, started);
        }
      }
    }
  }

  /** `Run` with the intended handshake (three reads, every failure closes the socket). */
  function Run(s: State, p: Request.Params, encode: string -> string, io: Io): Launch {
    Pipeline(s, Request.Build(p, encode), io, Handshake.Handshake(io.replies))
  }

  /** `Run` as the source writes it. */
  function RunAsWritten(s: State, p: Request.Params, encode: string -> string, io: Io): Launch {
    Pipeline(s, Request.Build(p, encode), io, Handshake.HandshakeAsWritten(io.replies))
  }

  /**
    The corrected `Run` succeeds exactly when the socket is created, the
    connection and the send succeed, and an acceptance is the caster's first
    answer within three reads. Success records the new descriptor, raises the
    service flag, sends the request, sets keepalive to (1, 30, 5, 3) and closes
    nothing; failure sets no keepalive and starts no monitor.
   */
  lemma RunSucceeds(s: State, p: Request.Params, encode: string -> string, io: Io)
    ensures Run(s, p, encode, io).ok <==> Reached(io) && Handshake.AcceptedWithin(io.replies, Handshake.Attempts)
    ensures Run(s, p, encode, io).ok ==>
      && Run(s, p, encode, io).server == s.(socketFd := io.socketRet, serviceIsRunning := true)
      && Send(io.socketRet, Request.Build(p, encode)) in Run(s, p, encode, io).effects
      && SetKeepalive(io.socketRet, Keepalive(1, 30, 5, 3)) in Run(s, p, encode, io).effects
      && SpawnMonitor in Run(s, p, encode, io).effects
      && Closes(Run(s, p, encode, io).effects) == []
    ensures !Run(s, p, encode, io).ok ==>
      && SpawnMonitor !in Run(s, p, encode, io).effects
      && forall e :: e in Run(s, p, encode, io).effects ==> !e.SetKeepalive?
    ensures Run(s, p, encode, io).ok ==>
      Run(s, p, encode, io).effects == [Connect(io.socketRet), SetNonBlocking(io.socketRet),
        Send(io.socketRet, Request.Build(p, encode)), SetKeepalive(io.socketRet, CasterKeepalive), SpawnMonitor]
  {
    Handshake.HandshakeAcceptsWithinBudget(io.replies);
    PipelineOutcome(s, Request.Build(p, encode), io, Handshake.Handshake(io.replies));
    PipelineOrder(s, Request.Build(p, encode), io, Handshake.Handshake(io.replies));
  }

  /**
    The source's `Run` succeeds exactly when socket, connect and send succeed
    and an acceptance is the caster's first answer within two reads. Its
    success path is the corrected one's: it records the new descriptor,
    raises the service flag, sends the request, sets keepalive to
    (1, 30, 5, 3), starts the monitor and closes nothing. Failure sets no
    keepalive and starts no monitor.
   */
  lemma RunAsWrittenSucceeds(s: State, p: Request.Params, encode: string -> string, io: Io)
    ensures RunAsWritten(s, p, encode, io).ok <==> Reached(io) && Handshake.AcceptedWithin(io.replies, Handshake.Attempts - 1)
    ensures RunAsWritten(s, p, encode, io).ok ==>
      && RunAsWritten(s, p, encode, io).server == s.(socketFd := io.socketRet, serviceIsRunning := true)
      && Send(io.socketRet, Request.Build(p, encode)) in RunAsWritten(s, p, encode, io).effects
      && SetKeepalive(io.socketRet, Keepalive(1, 30, 5, 3)) in RunAsWritten(s, p, encode, io).effects
      && SpawnMonitor in RunAsWritten(s, p, encode, io).effects
      && Closes(RunAsWritten(s, p, encode, io).effects) == []
    ensures !RunAsWritten(s, p, encode, io).ok ==>
      && SpawnMonitor !in RunAsWritten(s, p, encode, io).effects
      && forall e :: e in RunAsWritten(s, p, encode, io).effects ==> !e.SetKeepalive?
    ensures RunAsWritten(s, p, encode, io).ok ==>
      RunAsWritten(s, p, encode, io).effects == [Connect(io.socketRet), SetNonBlocking(io.socketRet),
        Send(io.socketRet, Request.Build(p, encode)), SetKeepalive(io.socketRet, CasterKeepalive), SpawnMonitor]
  {
    Handshake.AsWrittenAcceptsOnlyFirstTwoReads(io.replies);
    PipelineOutcome(s, Request.Build(p, encode), io, Handshake.HandshakeAsWritten(io.replies));
    PipelineOrder(s, Request.Build(p, encode), io, Handshake.HandshakeAsWritten(io.replies));
  }

  /**
    A failing corrected `Run` leaves the server as it was; it closes nothing when the
    socket was never created, and otherwise closes the new descriptor exactly
    once.
   */
  lemma RunFailureClosesOnce(s: State, p: Request.Params, encode: string -> string, io: Io)
    ensures !Run(s, p, encode, io).ok ==> Run(s, p, encode, io).server == s
    ensures !Run(s, p, encode, io).ok && io.socketRet == -1 ==> Run(s, p, encode, io).effects == []
    ensures !Run(s, p, encode, io).ok && io.socketRet != -1 ==> Closes(Run(s, p, encode, io).effects) == [io.socketRet]
  {
    Handshake.HandshakeAcceptsWithinBudget(io.replies);
    PipelineOutcome(s, Request.Build(p, encode), io, Handshake.Handshake(io.replies));
    PipelineCloses(s, Request.Build(p, encode), io, Handshake.Handshake(io.replies));
  }

  /**
    As written, `Run` succeeds only when the acceptance is the first answer
    within two reads. When every step before the handshake succeeded, the
    descriptor is closed only if the caster closed the connection; on every
    other failure it is left open and forgotten.
   */
  lemma RunAsWrittenLeaksDescriptor(s: State, p: Request.Params, encode: string -> string, io: Io)
    ensures RunAsWritten(s, p, encode, io).ok <==> Reached(io) && Handshake.AcceptedWithin(io.replies, Handshake.Attempts - 1)
    ensures Reached(io) && !RunAsWritten(s, p, encode, io).ok ==>
      && RunAsWritten(s, p, encode, io).server == s
      && (Closes(RunAsWritten(s, p, encode, io).effects) == [io.socketRet]
          <==> exists k :: Handshake.FirstAnswer(io.replies, k) && Ret(Handshake.ReadAt(io.replies, k)) == 0)
      && (Closes(RunAsWritten(s, p, encode, io).effects) == [] || Closes(RunAsWritten(s, p, encode, io).effects) == [io.socketRet])
  {
    Handshake.AsWrittenAcceptsOnlyFirstTwoReads(io.replies);
    PipelineCloses(s, Request.Build(p, encode), io, Handshake.HandshakeAsWritten(io.replies));
  }

  /**
    A caster that accepts on the third read: `Run` as written reports failure
    and leaves descriptor 3 open, while the intended `Run` starts the server.
   */
  lemma RunAsWrittenRejectsThirdReadAcceptance(p: Request.Params, encode: string -> string)
    ensures var io := Io(3, 0, 1, [Error(EAGAIN), Error(EAGAIN), Data(Handshake.AcceptLine)]);
      && !RunAsWritten(Idle, p, encode, io).ok
      && Closes(RunAsWritten(Idle, p, encode, io).effects) == []
      && Run(Idle, p, encode, io).ok
      && Run(Idle, p, encode, io).server.socketFd == 3
  {
    var io := Io(3, 0, 1, [Error(EAGAIN), Error(EAGAIN), Data(Handshake.AcceptLine)]);
    Handshake.AsWrittenRejectsThirdReadAcceptance();
    PipelineCloses(Idle, Request.Build(p, encode), io, Handshake.HandshakeAsWritten(io.replies));
  }

  /** `Run` on a server that already holds a descriptor replaces it without closing it. */
  lemma RunWhileRunningDropsDescriptor(s: State, p: Request.Params, encode: string -> string, io: Io)
    requires s.socketFd != -1 && s.socketFd != io.socketRet
    requires RunAsWritten(s, p, encode, io).ok
    ensures RunAsWritten(s, p, encode, io).server.socketFd == io.socketRet
    ensures s.socketFd !in Closes(RunAsWritten(s, p, encode, io).effects)
  {
    RunAsWrittenSucceeds(s, p, encode, io);
  }

  /**
    The destructor checks the monitor's flag, not the service flag: a server
    whose `Run` succeeded but whose monitor has not yet started is destroyed
    without its descriptor being closed.
   */
  lemma DestroyBeforeMonitorStartsLeaks(s: State, p: Request.Params, encode: string -> string, io: Io)
    requires !s.threadIsRunning && RunAsWritten(s, p, encode, io).ok
    ensures Closes(Destroy(RunAsWritten(s, p, encode, io).server).effects) == []
    ensures Destroy(RunAsWritten(s, p, encode, io).server).server.socketFd == io.socketRet
  {
    RunAsWrittenSucceeds(s, p, encode, io);
  }

  // ---------------------------------------------------------------------
  // Every transition together.
  // ---------------------------------------------------------------------

  /**
    One transition of the controller or of its monitor thread. A `RunCall`
    runs the source's `Run`, or the corrected one when `corrected` is set.
   */
  datatype Event =
    | RunCall(io: Io, corrected: bool)
    | StopCall
    | DestroyCall
    | MonitorStart
    | MonitorPass(reply: Recv)

  /** The handshake outcome a `RunCall` uses. */
  function HandshakeOf(io: Io, corrected: bool): Handshake.Outcome {
    if corrected then Handshake.Handshake(io.replies) else Handshake.HandshakeAsWritten(io.replies)
  }

  function Apply(s: State, p: Request.Params, encode: string -> string, e: Event): Step {
    match e
    case RunCall(io, corrected) =>
      var l := Pipeline(s, Request.Build(p, encode), io, HandshakeOf(io, corrected));
      Step(l.server, l.effects)
    case StopCall => Stop(s)
    case DestroyCall => Destroy(s)
    case MonitorStart => Step(MonitorBegin(s), [])
    case MonitorPass(reply) => MonitorTick(s, reply)
  }

  /** A `RunCall` is the source's `Run`, or the corrected one. */
  lemma ApplyRunCall(s: State, p: Request.Params, encode: string -> string, io: Io)
    ensures Apply(s, p, encode, RunCall(io, false)) == Step(RunAsWritten(s, p, encode, io).server, RunAsWritten(s, p, encode, io).effects)
    ensures Apply(s, p, encode, RunCall(io, true)) == Step(Run(s, p, encode, io).server, Run(s, p, encode, io).effects)
  {
  }

  /** Every transition, with either `Run`, keeps the flags and the descriptor consistent. */
  lemma TransitionPreservesConsistent(s: State, p: Request.Params, encode: string -> string, e: Event)
    requires Consistent(s)
    ensures Consistent(Apply(s, p, encode, e).server)
  {
    if e.RunCall? {
      PipelineOutcome(s, Request.Build(p, encode), e.io, HandshakeOf(e.io, e.corrected));
    }
  }

  /**
    Every transition, with either `Run`, closes at most one live descriptor
    and never leaves the server holding a descriptor it has just closed,
    provided `socket` does not hand out a descriptor the server holds open.
   */
  lemma TransitionClosesSoundly(s: State, p: Request.Params, encode: string -> string, e: Event)
    requires Consistent(s)
    requires e.RunCall? && s.socketFd != -1 ==> e.io.socketRet != s.socketFd
    ensures |LiveCloses(Apply(s, p, encode, e).effects)| <= 1
    ensures forall fd :: fd in LiveCloses(Apply(s, p, encode, e).effects) ==> Apply(s, p, encode, e).server.socketFd != fd
  {
    match e
    case RunCall(io, corrected) =>
      PipelineOutcome(s, Request.Build(p, encode), io, HandshakeOf(io, corrected));
      PipelineCloses(s, Request.Build(p, encode), io, HandshakeOf(io, corrected));
    case StopCall =>
      LiveClosesWithin(Stop(s).effects);
    case DestroyCall =>
    case MonitorStart =>
      ClosesNone([]);
    case MonitorPass(reply) =>
  }

  /** The state and the effects after a sequence of transitions. */
  function Replay(s: State, p: Request.Params, encode: string -> string, events: seq<Event>): Step
    decreases |events|
  {
    if |events| == 0 then Step(s, [])
    else
      var first := Apply(s, p, encode, events[0]);
      var rest := Replay(first.server, p, encode, events[1..]);
      Step(rest.server, first.effects + rest.effects)
  }

  /** From a consistent server, every sequence of transitions, with either `Run`, keeps the flags and the descriptor consistent. */
  lemma {:induction false} ReplayStaysConsistent(s: State, p: Request.Params, encode: string -> string, events: seq<Event>)
    requires Consistent(s)
    ensures Consistent(Replay(s, p, encode, events).server)
    decreases |events|
  {
    if |events| > 0 {
      TransitionPreservesConsistent(s, p, encode, events[0]);
      ReplayStaysConsistent(Apply(s, p, encode, events[0]).server, p, encode, events[1..]);
    }
  }
}

=== FILE: request.dfy ===
/**
  The NTRIP 2.0 upload request `NtripServer::Run` sends to the caster: the
  credential text handed to the Base64 encoder, the eight header lines, and
  the truncation both fixed-size buffers impose.
 */
module Request {
  import opened CString
  import Decimal

  /** Size of `userinfo_raw`, the buffer `user:passwd` is formatted into. */
  const UserInfoCapacity: nat := 48
  /** Size of `request_buffer`. */
  const RequestCapacity: nat := 1024

  const CRLF := "\r\n"

  /**
    The connection settings the request is built from. `agent` is the
    library's `kServerAgent` constant, whose value is not part of this model.
   */
  datatype Params = Params(
    serverIp: string,
    serverPort: int,
    mountpoint: string,
    user: string,
    passwd: string,
    ntripStr: string,
    agent: string)

  /** The text `"%s:%s"` produces from the user name and password. */
  function UserInfo(p: Params): string {
    CStr(p.user) + ":" + CStr(p.passwd)
  }

  /** The credential text handed to the Base64 encoder: `user:passwd`, cut to 47 characters. */
  function Credentials(p: Params): (r: string)
    ensures |r| <= UserInfoCapacity - 1 && |r| <= |UserInfo(p)|
    ensures r == UserInfo(p)[..|r|]
    ensures |UserInfo(p)| < UserInfoCapacity ==> r == UserInfo(p)
    ensures |UserInfo(p)| >= UserInfoCapacity ==> |r| == UserInfoCapacity - 1
    ensures NUL !in r
  {
    Snprintf(UserInfo(p), UserInfoCapacity)
  }

  /** The `Authorization: Basic` token: the encoder's output as `%s` reads it. */
  function Token(p: Params, encode: string -> string): string {
    CStr(encode(Credentials(p)))
  }

  // The fixed text of the request format string, piece by piece.
  const PostPrefix := "POST /"
  const HttpVersion := " HTTP/1.1"
  const HostPrefix := "Host: "
  const VersionLine := "Ntrip-Version: Ntrip/2.0"
  const AgentPrefix := "User-Agent: "
  const AuthPrefix := "Authorization: Basic "
  const StrPrefix := "Ntrip-STR: "
  const ConnectionLine := "Connection: close"
  const EncodingLine := "Transfer-Encoding: chunked"

  /** The request's header lines, in order, without their line terminators. */
  function HeaderLines(p: Params, token: string): seq<string> {
    [ PostPrefix + CStr(p.mountpoint) + HttpVersion,
      HostPrefix + CStr(p.serverIp) + ":" + Decimal.Format(p.serverPort),
      VersionLine,
      AgentPrefix + CStr(p.agent),
      AuthPrefix + token,
      StrPrefix + CStr(p.ntripStr),
      ConnectionLine,
      EncodingLine ]
  }

  /** Lines each followed by CRLF, concatenated. */
  function Terminate(lines: seq<string>): string {
    if |lines| == 0 then "" else lines[0] + CRLF + Terminate(lines[1..])
  }

  /** The full text the request format string produces, before the buffer cuts it. */
  function Formatted(p: Params, encode: string -> string): string {
    Terminate(HeaderLines(p, Token(p, encode)))
  }

  /**
    The request as sent: the formatted text cut to the 1023 characters
    `request_buffer` can hold. `send` is given `strlen` of the buffer, so the
    result carries no NUL and is sent whole.
   */
  function Build(p: Params, encode: string -> string): (r: string)
    ensures |r| < RequestCapacity && |r| <= |Formatted(p, encode)|
    ensures r == Formatted(p, encode)[..|r|]
    ensures |Formatted(p, encode)| < RequestCapacity ==> r == Formatted(p, encode)
    ensures |Formatted(p, encode)| >= RequestCapacity ==> |r| == RequestCapacity - 1
    ensures NUL !in r
  {
    HeadersLack(p, Token(p, encode), NUL);
    NoNulInTerminated(HeaderLines(p, Token(p, encode)));
    Snprintf(Formatted(p, encode), RequestCapacity)
  }

  /** Neither NUL nor a carriage return occurs in `s`. */
  predicate Plain(s: string) {
    NUL !in s && '\r' !in s
  }

  lemma PlainPrefixes()
    ensures Plain(PostPrefix) && Plain(HttpVersion) && Plain(HostPrefix) && Plain(":")
  {
  }

  lemma PlainFieldPrefixes()
    ensures Plain(AgentPrefix) && Plain(AuthPrefix) && Plain(StrPrefix)
  {
  }

  lemma PlainFixedLines()
    ensures Plain(VersionLine) && Plain(ConnectionLine)
  {
  }

  lemma PlainEncodingLine()
    ensures Plain(EncodingLine)
  {
  }

  lemma PlainPort(port: int)
    ensures Plain(Decimal.Format(port))
  {
    var t := Decimal.Format(port);
    assert forall i :: 0 <= i < |t| ==> t[i] != NUL && t[i] != '\r';
  }

  /** Each header line is free of `c` when every interpolated field is. */
  lemma HeadersLack(p: Params, token: string, c: char)
    requires c == NUL || c == '\r'
    requires c !in CStr(p.mountpoint) && c !in CStr(p.serverIp)
    requires c !in CStr(p.agent) && c !in CStr(p.ntripStr) && c !in token
    ensures forall i :: 0 <= i < |HeaderLines(p, token)| ==> c !in HeaderLines(p, token)[i]
  {
    PlainPrefixes();
    PlainFieldPrefixes();
    PlainFixedLines();
    PlainEncodingLine();
    PlainPort(p.serverPort);
    var l0 := PostPrefix + CStr(p.mountpoint) + HttpVersion;
    var l1 := HostPrefix + CStr(p.serverIp) + ":" + Decimal.Format(p.serverPort);
    var l3 := AgentPrefix + CStr(p.agent);
    var l4 := AuthPrefix + token;
    var l5 := StrPrefix + CStr(p.ntripStr);
    assert c !in l0 && c !in l1 && c !in l3 && c !in l4 && c !in l5;
    assert HeaderLines(p, token) == [l0, l1, VersionLine, l3, l4, l5, ConnectionLine, EncodingLine];
  }

  lemma {:induction false} NoNulInTerminated(lines: seq<string>)
    requires forall i :: 0 <= i < |lines| ==> NUL !in lines[i]
    ensures NUL !in Terminate(lines)
  {
    if |lines| > 0 {
      NoNulInTerminated(lines[1..]);
    }
  }

  // ---------------------------------------------------------------------
  // Reading a request back into lines.
  // ---------------------------------------------------------------------

  /** Position of the first CRLF in `s`, or `|s|` when there is none. */
  function FindCrlf(s: string): (i: nat)
    ensures i <= |s|
    ensures i < |s| ==> i + 1 < |s| && s[i] == '\r' && s[i + 1] == '\n'
  {
    if |s| < 2 then |s|
    else if s[0] == '\r' && s[1] == '\n' then 0
    else 1 + FindCrlf(s[1..])
  }

  /** No CRLF starts before the one `FindCrlf` reports. */
  lemma {:induction false} FindCrlfFirst(s: string, j: nat)
    requires j < FindCrlf(s) && j + 1 < |s|
    ensures !(s[j] == '\r' && s[j + 1] == '\n')
  {
    if j > 0 {
      FindCrlfFirst(s[1..], j - 1);
    }
  }

  /** CRLF-terminated lines, and whatever follows the last terminator. */
  datatype Split = Split(lines: seq<string>, tail: string)

  function SplitLines(s: string): Split
    decreases |s|
  {
    var i := FindCrlf(s);
    if i < |s| then
      var rest := SplitLines(s[i + 2..]);
      Split([s[..i]] + rest.lines, rest.tail)
    else Split([], s)
  }

  lemma TerminateCons(line: string, lines: seq<string>)
    ensures Terminate([line] + lines) == line + CRLF + Terminate(lines)
  {
    assert ([line] + lines)[1..] == lines;
  }

  lemma CrlfAt(s: string, i: nat)
    requires i + 1 < |s| && s[i] == '\r' && s[i + 1] == '\n'
    ensures s == s[..i] + CRLF + s[i + 2..]
  {
    assert s[i..i + 2] == CRLF;
    assert s == s[..i] + s[i..i + 2] + s[i + 2..];
  }

  /** One split step undone: a line, CRLF, and text that restores to the rest. */
  lemma RestoreStep(s: string, i: nat, lines: seq<string>, tail: string)
    requires i + 1 < |s| && s[i] == '\r' && s[i + 1] == '\n'
    requires Terminate(lines) + tail == s[i + 2..]
    ensures Terminate([s[..i]] + lines) + tail == s
  {
    TerminateCons(s[..i], lines);
    CrlfAt(s, i);
    assert s[..i] + CRLF + Terminate(lines) + tail == s[..i] + CRLF + (Terminate(lines) + tail);
  }

  /** Splitting loses nothing: the lines, re-terminated, followed by the tail give back the text. */
  lemma {:induction false} SplitLinesRestores(s: string)
    ensures Terminate(SplitLines(s).lines) + SplitLines(s).tail == s
    decreases |s|
  {
    var i := FindCrlf(s);
    var r := SplitLines(s);
    if i < |s| {
      var rest := SplitLines(s[i + 2..]);
      assert r.lines == [s[..i]] + rest.lines && r.tail == rest.tail;
      SplitLinesRestores(s[i + 2..]);
      RestoreStep(s, i, rest.lines, rest.tail);
    } else {
      assert r.lines == [] && r.tail == s;
    }
  }

  lemma FindCrlfOfLine(line: string, rest: string)
    requires '\r' !in line
    ensures FindCrlf(line + CRLF + rest) == |line|
  {
    var s := line + CRLF + rest;
    assert s[|line|] == '\r' && s[|line| + 1] == '\n';
    if FindCrlf(s) > |line| {
      FindCrlfFirst(s, |line|);
    }
  }

  /** A line without a carriage return, then CRLF, splits off as the first line. */
  lemma SplitStep(line: string, rest: string)
    requires '\r' !in line
    ensures SplitLines(line + CRLF + rest) == Split([line] + SplitLines(rest).lines, SplitLines(rest).tail)
  {
    var s := line + CRLF + rest;
    FindCrlfOfLine(line, rest);
    assert s[..|line|] == line;
    assert s[|line| + 2..] == rest;
  }

  /** Lines without a carriage return come back out of their terminated text unchanged. */
  lemma {:induction false} SplitTerminated(lines: seq<string>)
    requires forall i :: 0 <= i < |lines| ==> '\r' !in lines[i]
    ensures SplitLines(Terminate(lines)) == Split(lines, "")
  {
    if |lines| > 0 {
      SplitStep(lines[0], Terminate(lines[1..]));
      SplitTerminated(lines[1..]);
      assert [lines[0]] + lines[1..] == lines;
    }
  }

  lemma HeaderLinesNonEmpty(p: Params, token: string)
    ensures forall i :: 0 <= i < |HeaderLines(p, token)| ==> HeaderLines(p, token)[i] != ""
  {
    var lines := HeaderLines(p, token);
    assert |lines| == 8;
    assert |lines[0]| > 0 && |lines[1]| > 0 && |lines[2]| > 0 && |lines[3]| > 0;
    assert |lines[4]| > 0 && |lines[5]| > 0 && |lines[6]| > 0 && |lines[7]| > 0;
  }

  /** None of the interpolated fields holds a carriage return. */
  predicate PlainFields(p: Params, encode: string -> string) {
    && '\r' !in CStr(p.mountpoint)
    && '\r' !in CStr(p.serverIp)
    && '\r' !in CStr(p.agent)
    && '\r' !in CStr(p.ntripStr)
    && '\r' !in Token(p, encode)
  }

  /**
    A request that fits its buffer and whose fields hold no carriage return
    is exactly eight CRLF-terminated lines, in the order below, with no blank
    line among them (so no header terminator) and nothing after the last.
   */
  lemma RequestLayout(p: Params, encode: string -> string)
    requires |Formatted(p, encode)| < RequestCapacity
    requires PlainFields(p, encode)
    ensures SplitLines(Build(p, encode)).tail == ""
    ensures SplitLines(Build(p, encode)).lines == [
      "POST /" + CStr(p.mountpoint) + " HTTP/1.1",
      "Host: " + CStr(p.serverIp) + ":" + Decimal.Format(p.serverPort),
      "Ntrip-Version: Ntrip/2.0",
      "User-Agent: " + CStr(p.agent),
      "Authorization: Basic " + CStr(encode(Credentials(p))),
      "Ntrip-STR: " + CStr(p.ntripStr),
      "Connection: close",
      "Transfer-Encoding: chunked" ]
    ensures forall i :: 0 <= i < |SplitLines(Build(p, encode)).lines| ==> SplitLines(Build(p, encode)).lines[i] != ""
  {
    var lines := HeaderLines(p, Token(p, encode));
    HeadersLack(p, Token(p, encode), '\r');
    SplitTerminated(lines);
    assert Build(p, encode) == Terminate(lines);
    HeaderLinesNonEmpty(p, Token(p, encode));
  }
}

=== FILE: socket.dfy ===
/**
  Abstract stand-ins for the operating-system calls the server makes. The
  socket calls themselves are not modelled; what they return is an input, and
  what the server asks of the system is recorded as a sequence of effects.
 */
module Socket {

  /** Size of the buffers `recv` fills, in both the handshake and the monitor loop. */
  const RecvCapacity: nat := 1024

  /** Linux `errno` values the monitor loop tests (EWOULDBLOCK is EAGAIN there). */
  const EINTR: int := 4
  const EAGAIN: int := 11
  const EWOULDBLOCK: int := 11

  /**
    What one `recv` call produced: some bytes (an empty `Data` is a zero
    return, like `Closed`), an orderly close by the peer, or a failure with
    `errno` set.
   */
  datatype Recv = Data(bytes: string) | Closed | Error(errno: int)

  /** The value `recv` returns: the number of bytes copied (at most the buffer size), 0, or -1. */
  function Ret(r: Recv): (n: int)
    ensures n > 0 <==> r.Data? && |r.bytes| > 0
    ensures n == 0 <==> r.Closed? || r == Data([])
    ensures n < 0 <==> r.Error?
    ensures n <= RecvCapacity as int
  {
    match r
    case Data(b) => if |b| < RecvCapacity then |b| else RecvCapacity
    case Closed => 0
    case Error(_) => -1
  }

  /** The bytes `recv` copies into its buffer. */
  function Received(r: Recv): (b: string)
    ensures |b| == if Ret(r) > 0 then Ret(r) else 0
    ensures r.Data? ==> b == r.bytes[..|b|]
  {
    if r.Data? then r.bytes[..Ret(r)] else []
  }

  /** An error the monitor loop treats as "nothing to read yet" rather than a dead connection. */
  predicate Transient(errno: int) {
    errno == EAGAIN || errno == EWOULDBLOCK || errno == EINTR
  }

  /** The four TCP keepalive settings applied with `setsockopt`. */
  datatype Keepalive = Keepalive(enable: int, idle: int, interval: int, count: int)

  /** Keepalive on, first probe after 30 s idle, probes every 5 s, 3 probes before the peer is dead. */
  const CasterKeepalive := Keepalive(1, 30, 5, 3)

  /** A request the server makes of the operating system. */
  datatype Effect =
    | Connect(fd: int)
    | SetNonBlocking(fd: int)
    | Send(fd: int, data: string)
    | SetKeepalive(fd: int, options: Keepalive)
    | SpawnMonitor
    | Close(fd: int)

  /** The descriptor one effect closes, if any. */
  function ClosedBy(e: Effect): seq<int> {
    if e.Close? then [e.fd] else []
  }

  /** The descriptor one effect closes, if any and if it is not -1. */
  function LiveClosedBy(e: Effect): seq<int> {
    if e.Close? && e.fd != -1 then [e.fd] else []
  }

  /** The descriptors passed to `close`, in order. */
  function Closes(effects: seq<Effect>): (fds: seq<int>)
    ensures |fds| <= |effects|
  {
    if |effects| == 0 then [] else ClosedBy(effects[0]) + Closes(effects[1..])
  }

  /** The descriptors passed to `close` that could name an open socket (`-1` never does). */
  function LiveCloses(effects: seq<Effect>): (fds: seq<int>)
    ensures -1 !in fds
  {
    if |effects| == 0 then [] else LiveClosedBy(effects[0]) + LiveCloses(effects[1..])
  }

  lemma {:induction false} ClosesAppend(a: seq<Effect>, b: seq<Effect>)
    ensures Closes(a + b) == Closes(a) + Closes(b)
    decreases |a|
  {
    if |a| == 0 {
      assert a + b == b;
    } else {
      var ab := a + b;
      assert ab[0] == a[0] && ab[1..] == a[1..] + b;
      calc {
        Closes(ab);
        ClosedBy(a[0]) + Closes(a[1..] + b);
        { ClosesAppend(a[1..], b); }
        ClosedBy(a[0]) + (Closes(a[1..]) + Closes(b));
        (ClosedBy(a[0]) + Closes(a[1..])) + Closes(b);
      }
    }
  }

  lemma {:induction false} LiveClosesAppend(a: seq<Effect>, b: seq<Effect>)
    ensures LiveCloses(a + b) == LiveCloses(a) + LiveCloses(b)
    decreases |a|
  {
    if |a| == 0 {
      assert a + b == b;
    } else {
      var ab := a + b;
      assert ab[0] == a[0] && ab[1..] == a[1..] + b;
      calc {
        LiveCloses(ab);
        LiveClosedBy(a[0]) + LiveCloses(a[1..] + b);
        { LiveClosesAppend(a[1..], b); }
        LiveClosedBy(a[0]) + (LiveCloses(a[1..]) + LiveCloses(b));
        (LiveClosedBy(a[0]) + LiveCloses(a[1..])) + LiveCloses(b);
      }
    }
  }

  /** Closing is additive over concatenated effect logs. */
  lemma ClosesConcat(a: seq<Effect>, b: seq<Effect>)
    ensures Closes(a + b) == Closes(a) + Closes(b)
    ensures LiveCloses(a + b) == LiveCloses(a) + LiveCloses(b)
  {
    ClosesAppend(a, b);
    LiveClosesAppend(a, b);
  }

  /** Effects without a `Close` close nothing. */
  lemma {:induction false} ClosesNone(effects: seq<Effect>)
    requires forall i :: 0 <= i < |effects| ==> !effects[i].Close?
    ensures Closes(effects) == [] && LiveCloses(effects) == []
    decreases |effects|
  {
    if |effects| > 0 {
      ClosesNone(effects[1..]);
    }
  }

  lemma {:induction false} LiveClosesWithin(effects: seq<Effect>)
    ensures |LiveCloses(effects)| <= |Closes(effects)|
    decreases |effects|
  {
    if |effects| > 0 {
      LiveClosesWithin(effects[1..]);
    }
  }
}
